=== FILE: README.md ===
# ReadmeViewer decision logic in Dafny

ReadmeViewer is a Vortex mod-manager plugin. It copies the text of a mod's
readme file (any `.txt` file in the mod's directory) into the mod's
`readme` attribute, and it shows that attribute in the mods table. It also
registers a validation test that re-reads every enabled or installed
mod's directory and compares the readme with the stored attribute.

This project models the pure decisions in `index.js`:

- `onFileChanged`: does a directory-watcher event name the readme file?
  This includes Node's `path.extname` for both the POSIX and the Windows
  flavours of `path`, and `toLowerCase`.
- `filterFiles`: which listed names are handed to the validation callback.
- The synchronous part of `validateReadmeValues`:
  - the check that a game is active;
  - the selection of enabled or installed mods, in key order;
  - the abort at the first selected mod without a `readme` attribute;
  - the return value.

  The asynchronous directory and file comparisons are modelled as a
  separate step. Their rejections are never returned to the caller.
- The `calc` of the table column: the stored attribute, or `No readme found`.

Files and modules:

- `wrappers.dfy` (`Wrappers`): `Option`.
- `sequences.dfy` (`Sequences`): first index with a property.
- `jsstring.dfy` (`JsString`): `indexOf` and ASCII `toLowerCase`.
- `nodepath.dfy` (`NodePath`): `path.extname`.
- `readmefiles.dfy` (`ReadmeFiles`): `filterFiles`, `onFileChanged`.
- `watcherexamples.dfy` (`WatcherExamples`): concrete watcher names.
- `mods.dfy` (`Mods`): state, mod records, `getSafe`, mod selection, column value.
- `validation.dfy` (`Validation`): `validateReadmeValues` as written.
- `intended.dfy` (`IntendedValidation`): the corrected validation (see Findings).
- `scenarios.dfy` (`Scenarios`): concrete situations that compare the two validations.

The program's own text says what the validation is for, but the code
does not do it (see Findings):

- The comment at index.js:44-45 says the function compares each mod's
  readme file with its stored attribute.
- The `return Promise.reject("Readme file differs from stored attribute!")`
  statements at index.js:75 and index.js:83 show that a mismatch was
  meant to reach the caller as a rejection.
- The comment at index.js:73 says a directory without a `.txt` file is
  checked against the stored attribute, which is the sentinel text when
  no readme was found.
- The comment at index.js:11-12 says the test retrieves "the first .txt
  file" of a directory, and index.js:22-29 decides which file is a `.txt`
  file for the watcher that records the readme.

`Validation` follows the code as written. `IntendedValidation` states the
behaviour these lines describe.

## Model

| member | source | states |
|---|---|---|
| JsString.IndexOf | index.js:15 | `indexOf` gives the first position where `.txt` occurs, or -1 exactly when it occurs nowhere |
| JsString.IncludesIff | index.js:15 | `indexOf(...) !== -1` holds exactly when the pattern occurs somewhere in the name |
| JsString.ToLower | index.js:27 | lower-casing keeps the length and maps each character on its own |
| JsString.LowerCharPreimage | index.js:27-28 | only `.`, `t`/`T` and `x`/`X` lower-case to `.`, `t` and `x` |
| NodePath.SegmentExtension | index.js:27 | the extension is empty exactly when the segment is `..` or has no dot after its first character; a non-empty extension starts with the segment's last dot, holds no other dot, and is a proper suffix of the segment |
| NodePath.LastDot | index.js:27 | the index of the last `.` of a segment, or -1 when there is none |
| NodePath.FinalSegment | index.js:27 | the segment the extension is taken from is the longest separator-free tail of the path, after a Windows drive designator and trailing separators are dropped |
| ReadmeFiles.FilterFiles | index.js:13-20 | every callback argument is a listed name that contains `.txt`; there are never more calls than names |
| ReadmeFiles.FilterFilesMembership | index.js:14-16 | a name is passed to the callback if and only if it is listed and contains `.txt` |
| ReadmeFiles.FilterFilesAppend | index.js:14-19 | calls follow list order: a split listing gives the first part's calls, then the second's |
| ReadmeFiles.FilterFilesSingle | index.js:15-16 | a single name gives exactly one call when it contains `.txt` and none otherwise |
| ReadmeFiles.FilterFilesCount | index.js:13-19 | the number of calls plus the number of names without `.txt` is the number of listed names |
| ReadmeFiles.QualifiesIff | index.js:27-28 | a name qualifies exactly when its final segment has at least 5 characters and ends in `.txt` in any case |
| ReadmeFiles.OnFileChanged | index.js:25-33 | each event causes at most one call; the call carries the file name unchanged and happens only for `rename`; any other event is ignored; a `rename` without a name throws |
| ReadmeFiles.OnFileChangedInvokesIff | index.js:25-33 | the callback runs exactly for a `rename` whose final segment is at least 5 characters long and ends in `.txt`, in any case |
| WatcherExamples.UpperCaseReadmeQualifies | index.js:27-29 | `README.TXT` reaches the callback on every platform |
| WatcherExamples.BackupCopyDoesNotQualify | index.js:27-28 | `notes.txt.bak` is ignored because its extension is `.bak` |
| WatcherExamples.DotFileDoesNotQualify | index.js:27-28 | `.txt` is ignored because a leading dot starts no extension |
| WatcherExamples.PlainNameQualifiesIff | index.js:27-28 | for a bare file name, the test reads its last four characters and needs one more character before them |
| Mods.GetSafe | index.js:61 | the stored value when the key is present, even when that value is `null`; the fallback otherwise |
| Mods.ModsOf | index.js:54 | a game with a mods entry uses that entry's table; a game without one has no mods |
| Mods.SelectMods | index.js:54-56 | every selected mod is enabled or installed and comes from the table |
| Mods.SelectModsMembership | index.js:55 | a mod is selected if and only if it is in the table and enabled or installed |
| Mods.SelectModsAppend | index.js:54-56 | selection keeps key order |
| Mods.InactiveModIgnored | index.js:53-56 | inserting a mod that is neither enabled nor installed leaves the selection unchanged |
| Mods.RecordedReadme | index.js:61-64 | the validation treats an absent attribute like a stored `null`; a string it reads is what the column shows |
| Mods.ColumnValue | index.js:109 | the column shows the stored attribute when there is one, otherwise exactly `No readme found` |
| Mods.ColumnValueCases | index.js:109 | the column shows the sentinel only when no readme is stored or the sentinel itself is stored; it shows `null` only for a stored `null` |
| Mods.SentinelCollision | index.js:109 | a mod without a readme and a mod whose stored readme is the sentinel text look the same in the column; only the first fails validation |
| Validation.CheckSelected | index.js:58-66 | the loop returns `undefined` exactly when every selected mod has a readme; otherwise it rejects at the first mod without one, after starting scans for exactly the mods before it |
| Validation.LaterModsNotExamined | index.js:58-65 | mods after the first one without a readme change neither the result nor the started scans |
| Validation.ValidateReadmeValues | index.js:46-92 | without an active game the call rejects with the game message and starts no scan; the call never returns a resolving promise |
| Validation.MissingAttributeIff | index.js:53-65 | with a game active, the call rejects for a missing readme exactly when an enabled or installed mod lacks one; otherwise it returns `undefined` |
| Validation.OnReadme | index.js:71-87 | the callback raises at most one rejection: the mismatch message exactly when the named file's content differs from the record, nothing exactly when it equals the record, and a read failure for a file that cannot be read; the sentinel test belongs to the `null` branch |
| Validation.CallbackRejections | index.js:71-87 | the callback calls for a list of names raise at most one rejection per name, and only rejections the callback raises for one of those names |
| Validation.CallbackRejectionsAppend | index.js:71-87 | the callbacks run in list order: a split listing raises the first part's rejections, then the second's |
| Validation.CallbackRejectionsSingle | index.js:71-87 | one name raises exactly what the callback raises for it, so at most one rejection |
| Validation.CallbackRejectionsContain | index.js:71-87 | every rejection the callback raises for a passed name is among the rejections of the calls |
| Validation.ScanRejections | index.js:70-88 | a directory that cannot be listed raises exactly one rejection for that directory; a listed one raises only rejections the callback raises for names `filterFiles` passes on |
| Validation.Unhandled | index.js:58-90 | every unhandled rejection comes from one of the scans the loop started |
| Validation.UnhandledContain | index.js:58-90 | every rejection of a started scan is among the unhandled rejections |
| Validation.Observe | index.js:46-92 | what the caller receives is never a resolving promise; with no game, nothing else happens |
| Validation.ReturnIgnoresDisk | index.js:70-91 | what the call returns does not depend on any directory or file content |
| Validation.MismatchNeverReturned | index.js:70-91 | a selected mod whose `.txt` file differs from its record produces an unhandled mismatch rejection, while the call returns `undefined` |
| Validation.SentinelBranchUnreachable | index.js:71-75 | a directory with no `.txt` name produces no rejection, even when the record is not the sentinel |
| IntendedValidation.FirstQualifyingIndex | index.js:11-12 | the position found is that of a name passing the watcher's test, and no earlier name passes it; the listing's length means none passes |
| IntendedValidation.FirstQualifying | index.js:11-12 | the chosen readme is the first listed name that passes the watcher's test; nothing is chosen exactly when no name passes |
| IntendedValidation.CheckDirectory | index.js:70-85 | one mod passes exactly when its directory agrees with its record; it rejects with the read-failure reason exactly when the directory cannot be listed or its chosen readme file cannot be read, and with the mismatch message otherwise |
| IntendedValidation.CompareAll | index.js:58-91 | the comparisons resolve exactly when every directory agrees; otherwise the rejection is that of the first directory that does not agree |
| IntendedValidation.Validate | index.js:46-92 | the corrected call always returns a promise; it rejects for a missing game or missing readme exactly as the original does |
| IntendedValidation.ValidateResolvedIff | index.js:46-92 | the corrected call resolves exactly when a game is active and every enabled or installed mod has a readme that its directory agrees with |
| IntendedValidation.MissingReadmeTakesPrecedence | index.js:58-66 | an enabled or installed mod without a readme makes the corrected call reject with the attribute message, whatever any directory holds |
| IntendedValidation.MismatchRejects | index.js:79-84 | a selected mod whose readme file differs from its record makes the corrected call reject, with the mismatch or the read-failure reason |
| IntendedValidation.ReadableMismatchRejects | index.js:79-84 | when every enabled or installed mod's directory can be listed and its chosen readme file read, that rejection carries exactly the mismatch message |
| IntendedValidation.MissingFileNeedsSentinel | index.js:72-75 | a readable directory without a readme agrees only when the sentinel is recorded |
| IntendedValidation.ChoiceAgreesWithWatcher | index.js:27-28 | for any listing, the corrected validation chooses the first name the watcher would take as the readme, and chooses nothing exactly when the watcher would ignore every listed name |
| Scenarios.UpperCaseReadmeSkippedByFilter | index.js:15 | the watcher takes `README.TXT` as the readme, but `filterFiles` never passes it on |
| Scenarios.BackupCopyPassedByFilter | index.js:15 | `filterFiles` passes `notes.txt.bak` on, but the watcher never takes it as the readme |
| Scenarios.EmptyDirectoryWithSentinel | index.js:70-91 | empty directory, sentinel recorded: the corrected call resolves; the original returns `undefined` and raises nothing |
| Scenarios.NewTextFileIsMismatch | index.js:70-91 | the same mod after `notes.txt` holding `X` appears: the corrected call rejects with the mismatch message; the original returns `undefined` and the mismatch is only an unhandled rejection |
| Scenarios.EmptyDirectoryWithText | index.js:72-75 | empty directory, real text recorded: the corrected call rejects; the original raises nothing |

## Left out

- `lookUpReadMe` (index.js:144-188) is not modelled. It is the watch-and-retry loop: `fs.watch` callbacks, `fs.access`, asynchronous reads, the store dispatch, and a retry by unbounded recursion after read and watcher errors. It is event-driven I/O with no sequential state to state.
- `stopWatch` (index.js:37-42) is not modelled. It only closes an OS watch handle, and its assignment clears a local variable.
- `init` (index.js:94-142) is not modelled: plugin registration, event subscriptions and `alert` calls. Only the column `calc` is modelled.
- `views/ReadmeViewer.js` is not modelled. It is a read-only text area.
- `readdirAsync` and `readFileAsync` are replaced by a `FileSystem` value. The value maps a mod's directory to its listing and a (directory, name) pair to file content. A missing entry is a failed read. Timing and interleaving are not modelled.
- `path.join` is not modelled. Files are addressed by the mod's `installationPath` and a file name, because the install path is fixed for the whole call.
- `installationPath` is always a string. An undefined one would make `path.join` throw, and that case is not modelled.
- `localeCompare(...) !== 0` is modelled as plain string inequality. Locale-equivalent strings, which can compare equal, are not modelled.
- `toLowerCase` maps only the ASCII letters. This does not change the comparison with `.txt`: no other character lower-cases to `.`, `t` or `x`.
- `util.getSafe` is modelled for a one-element path only. An attribute object that is missing is modelled as an empty map.
- Attribute values are only strings or `null`. The only write of the `readme` attribute in index.js stores the `utf8` content of a file, which is a string (index.js:165-168); writes by other code are not modelled.
- The order of `Object.keys` over a game's mods is an input: each table is a sequence in key order.
- `selectors.activeGameId` is an input: an optional game id.
- `IntendedValidation.Validate` keeps the original order of checks: the attribute check for every enabled or installed mod comes before any directory comparison. This is because the loop at index.js:58-66 runs to completion before any `.then` callback can run. A correction that compared each directory before looking at the next mod's attribute would need the loop itself restructured, and is not modelled.
- `IntendedValidation.CompareAll` reports the first disagreeing directory in key order. Which comparison fails first in time depends on I/O timing, which is not modelled.
- `NodePath.ExtName` carries no contract of its own. Its properties are stated by `NodePath.SegmentExtension`, `NodePath.FinalSegment` and `ReadmeFiles.QualifiesIff`.

## Findings

| source | as written | input that shows it | evidently intended | confidence | as-written member | corrected member |
|---|---|---|---|---|---|---|
| index.js:70-91 | the comparisons' rejections are neither returned nor awaited, and the final `Promise.resolve()` has no `return`, so the call returns `undefined` | one installed mod recording `No readme found` whose directory holds `notes.txt` with content `X` | the returned promise rejects with `Readme file differs from stored attribute!` | high (not executed) | Validation.MismatchNeverReturned | IntendedValidation.ReadableMismatchRejects |
| index.js:71-75 | the sentinel comparison is in a branch for a `null` name, and `filterFiles` never passes `null` | one installed mod recording `Hello` whose directory is empty | the validation rejects because the sentinel is not what is recorded | high (not executed) | Validation.SentinelBranchUnreachable | IntendedValidation.MissingFileNeedsSentinel |
| index.js:15 | the validation looks for a lower-case `.txt` anywhere in the name, while the watcher (index.js:27-28) tests the lower-cased extension | `README.TXT` is stored by the watcher but never compared; `notes.txt.bak` is compared but never stored | both use the watcher's extension test | medium (not executed) | Scenarios.UpperCaseReadmeSkippedByFilter | IntendedValidation.ChoiceAgreesWithWatcher |

=== FILE: intended.dfy ===
/** The validation as the program's own text describes it. The comment
    at index.js:44-45 says it compares each readme file with the stored
    attribute; the `return Promise.reject(...)` lines at index.js:75 and
    index.js:83 show that a mismatch was meant to be reported; the
    comment at index.js:73 asks for a directory without a `.txt` file to
    be checked against the stored attribute; and the comment at
    index.js:11-12 asks for the first `.txt` file.

    So the returned promise rejects when some mod's directory does not
    agree with its recorded readme, with the reason of the first such mod
    in key order, and resolves otherwise. The attribute check keeps its
    place in the synchronous loop (index.js:58-66): a missing readme on
    any enabled or installed mod, before or after a disagreeing one,
    rejects with the attribute message, because that loop finishes before
    any directory comparison can run.

    It keeps the synchronous checks of `validateReadmeValues` unchanged
    and differs in three places: the comparisons' rejections are
    returned; a directory without a readme file is compared with the
    sentinel text; and the readme file is chosen with the watcher's own
    test (the first name whose lower-cased extension is `.txt`), not by
    looking for `.txt` anywhere in the name. A directory or file that
    cannot be read rejects too. */
module IntendedValidation {
  import opened Wrappers
  import opened NodePath
  import opened Mods
  import opened ReadmeFiles
  import opened Validation
  import opened Sequences

  /** Reason for a directory or readme file that cannot be read. The
      program has no text of its own for this: once the comparison chains
      are returned, the rejection carries the error that `readdirAsync`
      or `readFileAsync` rejects with, and this constant stands for that
      error. */
  const IO_FAILURE := "Cannot read the mod directory or its readme file!"

  /** The position of the first listed name the watcher would accept,
      or the length of the listing when there is none. */
  function FirstQualifyingIndex(pl: Platform, names: seq<string>): (k: nat)
    ensures k <= |names|
    ensures k < |names| ==> Qualifies(pl, names[k])
    ensures forall j :: 0 <= j < k ==> !Qualifies(pl, names[j])
  {
    FirstIndex(names, name => Qualifies(pl, name))
  }

  /** The first listed name the watcher would accept as the readme. */
  function FirstQualifying(pl: Platform, names: seq<string>): (r: Option<string>)
    ensures r.None? <==> forall i :: 0 <= i < |names| ==> !Qualifies(pl, names[i])
    ensures r.Some? ==> r.value in names && Qualifies(pl, r.value)
    ensures r.Some? ==> exists k :: 0 <= k < |names| && names[k] == r.value &&
                          forall j :: 0 <= j < k ==> !Qualifies(pl, names[j])
  {
    var k := FirstQualifyingIndex(pl, names);
    if k < |names| then Some(names[k]) else None
  }

  /** The directory of one mod agrees with its recorded readme: it can be
      listed, and either it holds no readme and the sentinel text is
      recorded, or its readme can be read and holds exactly the recorded
      text. */
  predicate DirectoryAgrees(pl: Platform, scan: Scan, fs: FileSystem)
  {
    && scan.dir in fs.listings
    && match FirstQualifying(pl, fs.listings[scan.dir])
       case None => scan.recorded == NO_README
       case Some(name) =>
         (scan.dir, name) in fs.contents && fs.contents[(scan.dir, name)] == scan.recorded
  }

  /** The comparison for one mod. */
  function CheckDirectory(pl: Platform, scan: Scan, fs: FileSystem): (r: Outcome)
    ensures r == Resolved <==> DirectoryAgrees(pl, scan, fs)
    ensures r == Resolved || r == Reject(DIFFERS) || r == Reject(IO_FAILURE)
    ensures r == Reject(IO_FAILURE) <==>
              scan.dir !in fs.listings ||
              (FirstQualifying(pl, fs.listings[scan.dir]).Some? &&
               (scan.dir, FirstQualifying(pl, fs.listings[scan.dir]).value) !in fs.contents)
    ensures r == Reject(DIFFERS) ==> scan.dir in fs.listings
  {
    if scan.dir !in fs.listings then Reject(IO_FAILURE)
    else
      match FirstQualifying(pl, fs.listings[scan.dir])
      case None => if scan.recorded == NO_README then Resolved else Reject(DIFFERS)
      case Some(name) =>
        if (scan.dir, name) !in fs.contents then Reject(IO_FAILURE)
        else if fs.contents[(scan.dir, name)] == scan.recorded then Resolved
        else Reject(DIFFERS)
  }

  /** The comparisons in key order, stopping at the first that fails. */
  function CompareAll(pl: Platform, scans: seq<Scan>, fs: FileSystem): (r: Outcome)
    ensures r == Resolved <==> forall i :: 0 <= i < |scans| ==> DirectoryAgrees(pl, scans[i], fs)
    ensures r == Resolved || r == Reject(DIFFERS) || r == Reject(IO_FAILURE)
    ensures r != Resolved ==>
              exists k :: 0 <= k < |scans| &&
                          (forall j :: 0 <= j < k ==> DirectoryAgrees(pl, scans[j], fs)) &&
                          r == CheckDirectory(pl, scans[k], fs)
  {
    var k := FirstIndex(scans, scan => !DirectoryAgrees(pl, scan, fs));
    if k < |scans| then CheckDirectory(pl, scans[k], fs) else Resolved
  }

  /** The corrected `validateReadmeValues`: the same synchronous checks,
      then the comparisons, whose outcome is returned. */
  function Validate(pl: Platform, st: State, fs: FileSystem): (r: Outcome)
    ensures r != NoValue
    ensures r == Reject(NO_GAME) <==> st.activeGameId == None
    ensures r == Reject(NO_ATTRIBUTE) <==> ValidateReadmeValues(st).result == Reject(NO_ATTRIBUTE)
    ensures r == Resolved || r.reason in {NO_GAME, NO_ATTRIBUTE, DIFFERS, IO_FAILURE}
  {
    var run := ValidateReadmeValues(st);
    if run.result.Reject? then run.result else CompareAll(pl, run.scans, fs)
  }

  /** The corrected validation resolves exactly when a game is active and
      every enabled or installed mod of it has a recorded readme that its
      directory agrees with. */
  lemma ValidateResolvedIff(pl: Platform, st: State, fs: FileSystem)
    ensures Validate(pl, st, fs) == Resolved <==>
            st.activeGameId.Some? &&
            forall m :: m in ModsOf(st, st.activeGameId.value) && IsActive(m) ==>
              RecordedReadme(m).Str? &&
              DirectoryAgrees(pl, Scan(m.installationPath, RecordedReadme(m).text), fs)
  {
    MissingAttributeIff(st);
    if st.activeGameId.Some? {
      var table := ModsOf(st, st.activeGameId.value);
      var selected := SelectMods(table);
      var run := CheckSelected(selected);
      if Validate(pl, st, fs) == Resolved {
        forall m | m in table && IsActive(m)
          ensures RecordedReadme(m).Str? &&
                  DirectoryAgrees(pl, Scan(m.installationPath, RecordedReadme(m).text), fs)
        {
          SelectModsMembership(table, m);
          var i :| 0 <= i < |selected| && selected[i] == m;
          assert run.scans[i] == Scan(m.installationPath, RecordedReadme(m).text);
        }
      }
      if forall m :: m in table && IsActive(m) ==>
           RecordedReadme(m).Str? &&
           DirectoryAgrees(pl, Scan(m.installationPath, RecordedReadme(m).text), fs) {
        assert run.result == NoValue;
        forall i | 0 <= i < |run.scans|
          ensures DirectoryAgrees(pl, run.scans[i], fs)
        {
          SelectModsMembership(table, selected[i]);
        }
      }
    }
  }

  /** A missing readme takes precedence over every comparison: when an
      enabled or installed mod of the active game has none, the corrected
      call rejects with the attribute message whatever the directories
      hold. */
  lemma MissingReadmeTakesPrecedence(pl: Platform, st: State, fs: FileSystem, m: Mod)
    requires st.activeGameId.Some?
    requires m in ModsOf(st, st.activeGameId.value) && IsActive(m)
    requires RecordedReadme(m) == Null
    ensures Validate(pl, st, fs) == Reject(NO_ATTRIBUTE)
  {
    MissingAttributeIff(st);
  }

  /** A mismatch is now reported: when a game is active and every
      selected mod has a readme, a selected mod whose readme file (the
      first qualifying name) holds different content makes the call
      reject, with the mismatch message or, when an earlier directory or
      file cannot be read, the read-failure reason. */
  lemma MismatchRejects(pl: Platform, st: State, fs: FileSystem, m: Mod, name: string)
    requires st.activeGameId.Some?
    requires var table := ModsOf(st, st.activeGameId.value);
             forall k :: k in table && IsActive(k) ==> RecordedReadme(k).Str?
    requires m in ModsOf(st, st.activeGameId.value) && IsActive(m)
    requires m.installationPath in fs.listings
    requires FirstQualifying(pl, fs.listings[m.installationPath]) == Some(name)
    requires (m.installationPath, name) in fs.contents
    requires fs.contents[(m.installationPath, name)] != RecordedReadme(m).text
    ensures Validate(pl, st, fs) == Reject(DIFFERS) || Validate(pl, st, fs) == Reject(IO_FAILURE)
  {
    ValidateResolvedIff(pl, st, fs);
    MissingAttributeIff(st);
  }

  /** When every directory and readme file can be read, the rejection a
      mismatch causes carries the mismatch message. */
  lemma ReadableMismatchRejects(pl: Platform, st: State, fs: FileSystem, m: Mod, name: string)
    requires st.activeGameId.Some?
    requires var table := ModsOf(st, st.activeGameId.value);
             forall k :: k in table && IsActive(k) ==> RecordedReadme(k).Str?
    requires var table := ModsOf(st, st.activeGameId.value);
             forall k :: k in table && IsActive(k) ==>
               k.installationPath in fs.listings &&
               forall n :: FirstQualifying(pl, fs.listings[k.installationPath]) == Some(n) ==>
                 (k.installationPath, n) in fs.contents
    requires m in ModsOf(st, st.activeGameId.value) && IsActive(m)
    requires m.installationPath in fs.listings
    requires FirstQualifying(pl, fs.listings[m.installationPath]) == Some(name)
    requires (m.installationPath, name) in fs.contents
    requires fs.contents[(m.installationPath, name)] != RecordedReadme(m).text
    ensures Validate(pl, st, fs) == Reject(DIFFERS)
  {
    MismatchRejects(pl, st, fs, m, name);
    var table := ModsOf(st, st.activeGameId.value);
    var selected := SelectMods(table);
    var run := CheckSelected(selected);
    MissingAttributeIff(st);
    assert run.result == NoValue;
    var r := CompareAll(pl, run.scans, fs);
    var k :| 0 <= k < |run.scans| && r == CheckDirectory(pl, run.scans[k], fs);
    var mk := selected[k];
    assert mk in table && IsActive(mk);
    var scan := run.scans[k];
    assert scan.dir == mk.installationPath && scan.dir in fs.listings;
    var choice := FirstQualifying(pl, fs.listings[scan.dir]);
    assert choice.Some? ==> (scan.dir, choice.value) in fs.contents;
  }

  /** A readable directory without a readme agrees with the recorded value
      only when that value is the sentinel text: the check the original
      never reaches. */
  lemma MissingFileNeedsSentinel(pl: Platform, scan: Scan, fs: FileSystem)
    requires scan.dir in fs.listings
    requires forall n :: n in fs.listings[scan.dir] ==> !Qualifies(pl, n)
    ensures CheckDirectory(pl, scan, fs) == Resolved <==> scan.recorded == NO_README
    ensures scan.recorded != NO_README ==> CheckDirectory(pl, scan, fs) == Reject(DIFFERS)
  {
  }

  /** The corrected validation picks its readme with the watcher's test:
      the chosen name is a listed name for which a `rename` event would
      reach the watcher's callback, every earlier name would be ignored by
      the watcher, and nothing is chosen exactly when the watcher would
      ignore every listed name. */
  lemma ChoiceAgreesWithWatcher(pl: Platform, names: seq<string>)
    ensures forall n :: FirstQualifying(pl, names) == Some(n) ==>
              n in names && OnFileChanged(pl, "rename", Some(n)) == Invoke(n)
    ensures forall n :: FirstQualifying(pl, names) == Some(n) ==>
              exists k :: 0 <= k < |names| && names[k] == n &&
                          forall j :: 0 <= j < k ==> OnFileChanged(pl, "rename", Some(names[j])) == Ignore
    ensures FirstQualifying(pl, names).None? <==>
            forall n :: n in names ==> OnFileChanged(pl, "rename", Some(n)) == Ignore
  {
  }
}

=== FILE: jsstring.dfy ===
/** The two JavaScript string primitives the plugin relies on:
    `String.prototype.indexOf` (from position 0) and `toLowerCase`
    restricted to the ASCII letters. */
module JsString {

  /** `pat` occurs in `s` starting at position `i`. */
  predicate OccursAt(s: string, pat: string, i: nat)
  {
    i + |pat| <= |s| && s[i..i + |pat|] == pat
  }

  /** `s.indexOf(pat)`: the first position at which `pat` occurs in `s`,
      or -1 when it occurs nowhere (an empty `pat` occurs at 0). */
  function IndexOf(s: string, pat: string): (r: int)
    ensures -1 <= r <= |s|
    ensures r == -1 <==> forall i: nat :: i <= |s| ==> !OccursAt(s, pat, i)
    ensures r >= 0 ==> OccursAt(s, pat, r)
    ensures r >= 0 ==> forall i: nat :: i < r ==> !OccursAt(s, pat, i)
  {
    IndexFrom(s, pat, 0)
  }

  /** The scan behind `IndexOf`, starting at position `from`. */
  function IndexFrom(s: string, pat: string, from: nat): (r: int)
    requires from <= |s|
    ensures r == -1 || from <= r <= |s|
    ensures r == -1 <==> forall i: nat :: from <= i <= |s| ==> !OccursAt(s, pat, i)
    ensures r >= 0 ==> OccursAt(s, pat, r)
    ensures r >= 0 ==> forall i: nat :: from <= i < r ==> !OccursAt(s, pat, i)
    decreases |s| - from
  {
    if OccursAt(s, pat, from) then from
    else if from == |s| then -1
    else IndexFrom(s, pat, from + 1)
  }

  /** `s.indexOf(pat) !== -1`. */
  predicate Includes(s: string, pat: string)
  {
    IndexOf(s, pat) != -1
  }

  /** `pat` is a contiguous piece of `s`. */
  lemma IncludesIff(s: string, pat: string)
    ensures Includes(s, pat) <==> exists i: nat :: i <= |s| && OccursAt(s, pat, i)
  {
  }

  /** The lower-case form of an ASCII upper-case letter; every other
      character is left as it is. */
  function LowerChar(c: char): char
  {
    if 'A' <= c <= 'Z' then (c as int + 32) as char else c
  }

  /** `s.toLowerCase()` on the ASCII letters. */
  function ToLower(s: string): (r: string)
    ensures |r| == |s|
    ensures forall i :: 0 <= i < |s| ==> r[i] == LowerChar(s[i])
  {
    if |s| == 0 then []
    else
      var r := ToLower(s[..|s| - 1]) + [LowerChar(s[|s| - 1])];
      assert forall i :: 0 <= i < |s| - 1 ==> r[i] == LowerChar(s[..|s| - 1][i]);
      r
  }

  /** Lower-casing only maps a character onto a lower-case letter or
      keeps it, so `.` and the letters `t` and `x` come only from
      themselves or their upper-case forms. */
  lemma LowerCharPreimage(c: char)
    ensures LowerChar(c) == '.' <==> c == '.'
    ensures LowerChar(c) == 't' <==> c == 't' || c == 'T'
    ensures LowerChar(c) == 'x' <==> c == 'x' || c == 'X'
  {
  }
}

=== FILE: mods.dfy ===
/** The part of the application state the plugin reads: the active game,
    the per-game mod tables, and each mod's attributes. */
module Mods {
  import opened Wrappers

  const README_ATTRIB := "readme"
  const NO_README := "No readme found"

  /** An attribute value as the plugin can observe it: a string, or an
      attribute explicitly stored as `null`. An attribute that is not
      stored at all is absent from the attribute map. */
  datatype Value = Str(text: string) | Null

  /** A mod record. `attributes` also stands for a missing attribute
      object, which behaves like an empty one for every lookup here. */
  datatype Mod = Mod(id: string, state: string, installationPath: string, attributes: map<string, Value>)

  /** `state.persistent.mods` holds, per game id, that game's mods in the
      order `Object.keys` lists them. */
  datatype State = State(activeGameId: Option<string>, mods: map<string, seq<Mod>>)

  /** `util.getSafe(obj, [key], fallback)` for a one-element path: the
      stored value when the key is present (even when it is `null`), the
      fallback otherwise. */
  function GetSafe(obj: map<string, Value>, key: string, fallback: Value): (r: Value)
    ensures key in obj ==> r == obj[key]
    ensures key !in obj ==> r == fallback
  {
    if key in obj then obj[key] else fallback
  }

  /** `state.persistent.mods[gameId] || {}`: the game's own table when it
      has an entry, and no mods otherwise. */
  function ModsOf(st: State, gameId: string): (table: seq<Mod>)
    ensures gameId in st.mods ==> table == st.mods[gameId]
    ensures gameId !in st.mods ==> table == []
  {
    if gameId in st.mods then st.mods[gameId] else []
  }

  /** A mod the validation looks at: its state is `enabled` or
      `installed`. */
  predicate IsActive(m: Mod)
  {
    m.state == "enabled" || m.state == "installed"
  }

  /** The mods whose state is `enabled` or `installed`, in key order. */
  function SelectMods(table: seq<Mod>): (r: seq<Mod>)
    ensures |r| <= |table|
    ensures forall i :: 0 <= i < |r| ==> IsActive(r[i])
    ensures forall i :: 0 <= i < |r| ==> r[i] in table
  {
    if |table| == 0 then []
    else
      var rest := SelectMods(table[1..]);
      if IsActive(table[0]) then [table[0]] + rest else rest
  }

  /** Selection keeps a mod if and only if it is listed and active. */
  lemma {:induction false} SelectModsMembership(table: seq<Mod>, m: Mod)
    ensures m in SelectMods(table) <==> m in table && IsActive(m)
  {
    if |table| > 0 {
      SelectModsMembership(table[1..], m);
      assert table == [table[0]] + table[1..];
    }
  }

  /** Selection keeps key order: selecting from two consecutive parts of
      a table gives the first part's selection, then the second's. */
  lemma {:induction false} SelectModsAppend(a: seq<Mod>, b: seq<Mod>)
    ensures SelectMods(a + b) == SelectMods(a) + SelectMods(b)
  {
    if |a| == 0 {
      assert a + b == b;
    } else {
      assert (a + b)[1..] == a[1..] + b;
      SelectModsAppend(a[1..], b);
    }
  }

  /** A mod that is neither enabled nor installed can be inserted anywhere
      without changing the selection. */
  lemma InactiveModIgnored(a: seq<Mod>, m: Mod, b: seq<Mod>)
    requires !IsActive(m)
    ensures SelectMods(a + [m] + b) == SelectMods(a + b)
  {
    SelectModsAppend(a + [m], b);
    SelectModsAppend(a, [m]);
    SelectModsAppend(a, b);
    assert SelectMods([m]) == [];
  }

  /** The value the `readme` column shows: the stored attribute, or the
      text `No readme found` when none is stored. */
  function ColumnValue(m: Mod): (r: Value)
    ensures README_ATTRIB in m.attributes ==> r == m.attributes[README_ATTRIB]
    ensures README_ATTRIB !in m.attributes ==> r == Str(NO_README)
  {
    GetSafe(m.attributes, README_ATTRIB, Str(NO_README))
  }

  /** The readme attribute as the validation reads it: with `null` as the
      fallback, so an absent attribute and a stored `null` look alike. */
  function RecordedReadme(m: Mod): (r: Value)
    ensures r == Null <==> README_ATTRIB !in m.attributes || m.attributes[README_ATTRIB] == Null
    ensures r.Str? ==> ColumnValue(m) == r
  {
    GetSafe(m.attributes, README_ATTRIB, Null)
  }

  /** The column cannot tell a mod without a readme from a mod whose
      stored readme is literally `No readme found`, though the validation
      treats the first as missing its attribute and the second as having
      one. */
  lemma SentinelCollision(m1: Mod, m2: Mod)
    requires README_ATTRIB !in m1.attributes
    requires README_ATTRIB in m2.attributes && m2.attributes[README_ATTRIB] == Str(NO_README)
    ensures ColumnValue(m1) == ColumnValue(m2)
    ensures RecordedReadme(m1) == Null && RecordedReadme(m2) != Null
  {
  }

  /** The column shows the sentinel text only for mods without a stored
      readme or with the sentinel stored, and shows `null` only for a
      stored `null`. */
  lemma ColumnValueCases(m: Mod)
    ensures ColumnValue(m) == Str(NO_README) <==>
            README_ATTRIB !in m.attributes || m.attributes[README_ATTRIB] == Str(NO_README)
    ensures ColumnValue(m) == Null <==>
            README_ATTRIB in m.attributes && m.attributes[README_ATTRIB] == Null
  {
  }
}

=== FILE: nodepath.dfy ===
/** Node's `path.extname`, for the POSIX flavour of `path` and for the
    Windows flavour (`path.win32`) that the host application uses on
    Windows.

    The extension is taken from the final segment of the path, after any
    trailing separators are dropped (and, on Windows, after a leading
    `C:` drive designator). It runs from the last `.` of that segment to
    its end, and it is empty when the segment has no `.`, when its only
    `.` candidate is the segment's first character, or when the segment
    is exactly `..`. */
module NodePath {

  datatype Platform = Posix | Win32

  predicate IsSeparator(pl: Platform, c: char)
  {
    c == '/' || (pl == Win32 && c == '\\')
  }

  /** A bare file name: no separator of either flavour and no `:`, so it
      is its own final segment on both platforms. */
  predicate IsPlainName(name: string)
  {
    forall i :: 0 <= i < |name| ==> !IsSeparator(Win32, name[i]) && name[i] != ':'
  }

  predicate IsDriveLetter(c: char)
  {
    ('A' <= c <= 'Z') || ('a' <= c <= 'z')
  }

  /** Where the scan for the final segment stops: after a `C:` drive
      designator on Windows, at the start otherwise. */
  function RootEnd(pl: Platform, p: string): (r: nat)
    ensures r <= |p|
    ensures r == 0 || r == 2
    ensures r > 0 <==> pl == Win32 && |p| >= 2 && p[1] == ':' && IsDriveLetter(p[0])
  {
    if pl == Win32 && |p| >= 2 && p[1] == ':' && IsDriveLetter(p[0]) then 2 else 0
  }

  /** `q` without its trailing separators. */
  function TrimSeparators(pl: Platform, q: string): (r: string)
    ensures |r| <= |q| && r == q[..|r|]
    ensures |r| == 0 || !IsSeparator(pl, r[|r| - 1])
    ensures forall i :: |r| <= i < |q| ==> IsSeparator(pl, q[i])
  {
    if |q| > 0 && IsSeparator(pl, q[|q| - 1]) then TrimSeparators(pl, q[..|q| - 1]) else q
  }

  /** The longest suffix of `t` that holds no separator. */
  function LastRun(pl: Platform, t: string): (r: string)
    ensures |r| <= |t| && r == t[|t| - |r|..]
    ensures forall i :: 0 <= i < |r| ==> !IsSeparator(pl, r[i])
    ensures |r| == |t| || IsSeparator(pl, t[|t| - |r| - 1])
  {
    if |t| > 0 && !IsSeparator(pl, t[|t| - 1]) then
      var r := LastRun(pl, t[..|t| - 1]);
      assert t[..|t| - 1][|t| - 1 - |r|..] == t[|t| - 1 - |r|..|t| - 1];
      r + [t[|t| - 1]]
    else
      []
  }

  /** The final segment of `p`: what `path.basename` would give. Past a
      Windows drive designator and with trailing separators dropped, it is
      the longest separator-free tail of the path. */
  function FinalSegment(pl: Platform, p: string): (seg: string)
    ensures forall i :: 0 <= i < |seg| ==> !IsSeparator(pl, seg[i])
    ensures var t := TrimSeparators(pl, p[RootEnd(pl, p)..]);
            |seg| <= |t| && seg == t[|t| - |seg|..] &&
            (|seg| == |t| || IsSeparator(pl, t[|t| - |seg| - 1]))
  {
    LastRun(pl, TrimSeparators(pl, p[RootEnd(pl, p)..]))
  }

  /** The index of the last `.` in `s`, or -1 when there is none. */
  function LastDot(s: string): (r: int)
    ensures -1 <= r < |s|
    ensures r >= 0 ==> s[r] == '.'
    ensures forall i :: r < i < |s| ==> s[i] != '.'
  {
    if |s| == 0 then -1
    else if s[|s| - 1] == '.' then |s| - 1
    else LastDot(s[..|s| - 1])
  }

  /** The extension of one segment. It is empty exactly when the segment
      is `..` or has no `.` after its first character. A non-empty result
      starts with the only `.` it holds and is a proper suffix of the
      segment: something precedes the dot. */
  function SegmentExtension(seg: string): (r: string)
    ensures r == "" <==> seg == ".." || forall i :: 0 < i < |seg| ==> seg[i] != '.'
    ensures r != "" ==> r[0] == '.'
    ensures forall i :: 0 < i < |r| ==> r[i] != '.'
    ensures r != "" ==> |r| < |seg| && r == seg[|seg| - |r|..]
  {
    var d := LastDot(seg);
    if d <= 0 || seg == ".." then "" else seg[d..]
  }

  /** `path.extname(p)`: the extension of the final segment. */
  function ExtName(pl: Platform, p: string): string
  {
    SegmentExtension(FinalSegment(pl, p))
  }
}

=== FILE: readmefiles.dfy ===
/** How the plugin recognises the readme file: the directory-listing
    filter used by the validation test (`filterFiles`) and the classifier
    of directory-watcher events (`onFileChanged`). The two use different
    tests: the filter looks for the text `.txt` anywhere in the name, the
    watcher looks at the lower-cased extension. */
module ReadmeFiles {
  import opened Wrappers
  import opened JsString
  import opened NodePath

  const TXT := ".txt"

  /** The filter's test: the name contains `.txt` somewhere. */
  predicate ContainsTxt(name: string)
  {
    Includes(name, TXT)
  }

  /** `filterFiles(files, callback)`: the arguments of the callback calls,
      in call order. Despite the "first .txt file" comment, the callback
      runs once for EVERY name that contains `.txt`. The array that
      `files.filter` builds is discarded (the predicate always returns
      `undefined`), so the calls are the only effect. */
  function FilterFiles(files: seq<string>): (calls: seq<string>)
    ensures |calls| <= |files|
    ensures forall i :: 0 <= i < |calls| ==> ContainsTxt(calls[i])
    ensures forall i :: 0 <= i < |calls| ==> calls[i] in files
  {
    if |files| == 0 then []
    else
      var rest := FilterFiles(files[1..]);
      if ContainsTxt(files[0]) then [files[0]] + rest else rest
  }

  /** The callback sees the names in list order: filtering a list that is
      split in two gives the calls for the first part, then those for the
      second. */
  lemma {:induction false} FilterFilesAppend(a: seq<string>, b: seq<string>)
    ensures FilterFiles(a + b) == FilterFiles(a) + FilterFiles(b)
  {
    if |a| == 0 {
      assert a + b == b;
    } else {
      assert (a + b)[1..] == a[1..] + b;
      FilterFilesAppend(a[1..], b);
    }
  }

  /** A single name gives one call exactly when it contains `.txt`. */
  lemma FilterFilesSingle(f: string)
    ensures FilterFiles([f]) == (if ContainsTxt(f) then [f] else [])
  {
  }

  /** A name is passed to the callback if and only if it is listed and
      contains `.txt`. */
  lemma {:induction false} FilterFilesMembership(files: seq<string>, f: string)
    ensures f in FilterFiles(files) <==> f in files && ContainsTxt(f)
  {
    if |files| > 0 {
      FilterFilesMembership(files[1..], f);
      assert files == [files[0]] + files[1..];
    }
  }

  /** The names the filter drops, in list order. */
  function NonMatching(files: seq<string>): seq<string>
  {
    if |files| == 0 then []
    else
      var rest := NonMatching(files[1..]);
      if ContainsTxt(files[0]) then rest else [files[0]] + rest
  }

  /** Every listed name is either passed on or dropped: the number of
      calls plus the number of names without `.txt` is the length of the
      listing. */
  lemma {:induction false} FilterFilesCount(files: seq<string>)
    ensures |FilterFiles(files)| + |NonMatching(files)| == |files|
  {
    if |files| > 0 {
      FilterFilesCount(files[1..]);
    }
  }

  /** The watcher's test: the lower-cased `path.extname` is `.txt`. */
  predicate Qualifies(pl: Platform, fileName: string)
  {
    ToLower(ExtName(pl, fileName)) == TXT
  }

  /** A name qualifies exactly when its final segment is at least five
      characters long and ends in `.txt` in any mix of case: four
      characters of extension and at least one before the dot. */
  lemma QualifiesIff(pl: Platform, fileName: string)
    ensures var seg := FinalSegment(pl, fileName);
            Qualifies(pl, fileName) <==> |seg| >= 5 && ToLower(seg[|seg| - 4..]) == TXT
  {
    SegmentQualifiesIff(FinalSegment(pl, fileName));
  }

  lemma SegmentQualifiesIff(seg: string)
    ensures ToLower(SegmentExtension(seg)) == TXT <==> |seg| >= 5 && ToLower(seg[|seg| - 4..]) == TXT
  {
    if ToLower(SegmentExtension(seg)) == TXT {
      QualifyingSegmentIsLong(seg);
    }
    if |seg| >= 5 && ToLower(seg[|seg| - 4..]) == TXT {
      TxtEndingQualifies(seg);
    }
  }

  lemma QualifyingSegmentIsLong(seg: string)
    requires ToLower(SegmentExtension(seg)) == TXT
    ensures |seg| >= 5 && ToLower(seg[|seg| - 4..]) == TXT
  {
    var ext := SegmentExtension(seg);
    assert |ext| == 4;
    assert ext == seg[|seg| - 4..];
  }

  lemma TxtEndingQualifies(seg: string)
    requires |seg| >= 5 && ToLower(seg[|seg| - 4..]) == TXT
    ensures ToLower(SegmentExtension(seg)) == TXT
  {
    var tail := seg[|seg| - 4..];
    var low := ToLower(tail);
    assert low[0] == '.' && low[1] == 't' && low[2] == 'x' && low[3] == 't';
    LowerCharPreimage(tail[0]);
    LowerCharPreimage(tail[1]);
    LowerCharPreimage(tail[2]);
    LowerCharPreimage(tail[3]);
    assert seg[|seg| - 4] == '.';
    assert seg[|seg| - 3] != '.' && seg[|seg| - 2] != '.' && seg[|seg| - 1] != '.';
    var d := LastDot(seg);
    assert d == |seg| - 4;
    assert SegmentExtension(seg) == tail;
  }

  /** What one watcher event makes `onFileChanged` do. */
  datatype WatchAction =
    | Invoke(fileName: string)  // the callback runs once, with this name
    | Ignore                    // the callback does not run
    | ThrowTypeError            // `path.extname` throws on a missing name

  /** `onFileChanged(event, fileName, callback)`. Node's watcher may
      report no file name (`null`); `path.extname` then throws, but only
      when the event is a `rename`. */
  function OnFileChanged(pl: Platform, event: string, fileName: Option<string>): (a: WatchAction)
    ensures a.Invoke? ==> event == "rename" && fileName == Some(a.fileName)
    ensures event != "rename" ==> a == Ignore
    ensures a == ThrowTypeError <==> event == "rename" && fileName == None
    ensures event == "rename" && fileName.Some? ==> (a.Invoke? <==> Qualifies(pl, fileName.value))
  {
    if event == "rename" then
      match fileName
      case None => ThrowTypeError
      case Some(name) => if Qualifies(pl, name) then Invoke(name) else Ignore
    else
      Ignore
  }

  /** The callback runs for a named `rename` event exactly when the
      name's final segment ends in `.txt`, in any case, after at least one
      other character; the name is passed on unchanged. */
  lemma OnFileChangedInvokesIff(pl: Platform, event: string, name: string)
    ensures var seg := FinalSegment(pl, name);
            OnFileChanged(pl, event, Some(name)) == Invoke(name) <==>
            event == "rename" && |seg| >= 5 && ToLower(seg[|seg| - 4..]) == TXT
  {
    QualifiesIff(pl, name);
  }

  /** A name without separators or drive designator is its own final
      segment. */
  lemma PlainSegment(pl: Platform, name: string)
    requires IsPlainName(name)
    ensures FinalSegment(pl, name) == name
  {
    assert RootEnd(pl, name) == 0 by {
      if |name| >= 2 {
        assert name[1] != ':';
      }
    }
    assert name[0..] == name;
    LastRunPlain(pl, name);
  }

  /** A name with no separator is its own final segment. */
  lemma {:induction false} LastRunPlain(pl: Platform, t: string)
    requires forall i :: 0 <= i < |t| ==> !IsSeparator(pl, t[i])
    ensures TrimSeparators(pl, t) == t
    ensures LastRun(pl, t) == t
  {
    if |t| > 0 {
      var init := t[..|t| - 1];
      LastRunPlain(pl, init);
      assert LastRun(pl, t) == LastRun(pl, init) + [t[|t| - 1]];
      assert init + [t[|t| - 1]] == t;
    }
  }
}

=== FILE: scenarios.dfy ===
/** Concrete situations that show where the original and the corrected
    validation part ways. Each is stated for arbitrary values equal to
    the literals. */
module Scenarios {
  import opened Wrappers
  import opened JsString
  import opened NodePath
  import opened Mods
  import opened ReadmeFiles
  import opened Validation
  import opened IntendedValidation
  import opened Sequences
  import WatcherExamples

  /** A name without a lower-case `t` cannot contain `.txt`. */
  lemma NoLowerTNoTxt(s: string)
    requires forall i :: 0 <= i < |s| ==> s[i] != 't'
    ensures !ContainsTxt(s)
  {
    if ContainsTxt(s) {
      TxtHasLowerT(s);
    }
  }

  lemma TxtHasLowerT(s: string)
    requires ContainsTxt(s)
    ensures exists i :: 0 <= i < |s| && s[i] == 't'
  {
    var r := IndexOf(s, TXT);
    assert s[r..r + 4][1] == 't';
    assert s[r + 1] == 't';
  }

  /** A name that holds `.txt` at position `i` contains it. */
  lemma TxtAtContains(s: string, i: nat)
    requires i + 4 <= |s| && s[i..i + 4] == TXT
    ensures ContainsTxt(s)
  {
    assert OccursAt(s, TXT, i);
  }

  /** The watcher stores the content of `README.TXT`, but the validation's
      filter never passes that name on: it looks for a lower-case
      `.txt`. */
  lemma UpperCaseReadmeSkippedByFilter(pl: Platform, name: string)
    requires name == "README.TXT"
    ensures OnFileChanged(pl, "rename", Some(name)) == Invoke(name)
    ensures FilterFiles([name]) == []
  {
    WatcherExamples.UpperCaseReadmeQualifies(pl, name);
    UpperCaseReadmeFiltered(name);
  }

  lemma UpperCaseReadmeFiltered(name: string)
    requires name == "README.TXT"
    ensures FilterFiles([name]) == []
  {
    NoLowerTNoTxt(name);
  }

  /** The filter passes `notes.txt.bak` on, though the watcher would never
      take it for the readme. */
  lemma BackupCopyPassedByFilter(pl: Platform, name: string)
    requires name == "notes.txt.bak"
    ensures OnFileChanged(pl, "rename", Some(name)) == Ignore
    ensures FilterFiles([name]) == [name]
  {
    WatcherExamples.BackupCopyDoesNotQualify(pl, name);
    BackupCopyFiltered(name);
  }

  lemma BackupCopyFiltered(name: string)
    requires name == "notes.txt.bak"
    ensures FilterFiles([name]) == [name]
  {
    TxtAtContains(name, 5);
  }

  /** A state with one installed mod, `mod-7`, whose directory is
      `mod-7` and whose recorded readme is `recorded`. */
  predicate OneModState(st: State, m: Mod, recorded: string)
  {
    && m == Mod("mod-7", "installed", "mod-7", map[README_ATTRIB := Str(recorded)])
    && st == State(Some("game"), map["game" := [m]])
  }

  lemma OneModRun(st: State, m: Mod, recorded: string)
    requires OneModState(st, m, recorded)
    ensures ValidateReadmeValues(st) == Run(NoValue, [Scan("mod-7", recorded)])
  {
    assert SelectMods([m]) == [m];
    assert RecordedReadme(m) == Str(recorded);
  }

  /** An empty directory and the sentinel recorded: the corrected
      validation resolves, the original returns `undefined` and raises
      nothing. */
  lemma EmptyDirectoryWithSentinel(pl: Platform, st: State, m: Mod, fs: FileSystem)
    requires OneModState(st, m, NO_README)
    requires fs == FileSystem(map["mod-7" := []], map[])
    ensures Validate(pl, st, fs) == Resolved
    ensures Observe(st, fs) == Observation(NoValue, [])
  {
    OneModRun(st, m, NO_README);
    var scan := Scan("mod-7", NO_README);
    assert FirstQualifying(pl, []) == None;
    assert DirectoryAgrees(pl, scan, fs);
    assert CompareAll(pl, [scan], fs) == Resolved;
    assert ScanRejections(scan, fs) == [];
    assert Unhandled([scan], fs) == [];
  }

  /** The same mod after a `notes.txt` holding `X` appears, without the
      recorded readme changing: the corrected validation rejects with the
      mismatch message; the original still returns `undefined` and the
      mismatch surfaces only as an unhandled rejection. */
  lemma NewTextFileIsMismatch(pl: Platform, st: State, m: Mod, fs: FileSystem, name: string)
    requires OneModState(st, m, NO_README)
    requires name == "notes.txt"
    requires fs == FileSystem(map["mod-7" := [name]], map[("mod-7", name) := "X"])
    ensures Validate(pl, st, fs) == Reject(DIFFERS)
    ensures Observe(st, fs) == Observation(NoValue, [Rejected(DIFFERS)])
  {
    OneModRun(st, m, NO_README);
    NewTextFileCorrected(pl, fs, name);
    NewTextFileAsWritten(fs, name);
  }

  lemma NewTextFileCorrected(pl: Platform, fs: FileSystem, name: string)
    requires name == "notes.txt"
    requires fs == FileSystem(map["mod-7" := [name]], map[("mod-7", name) := "X"])
    ensures CompareAll(pl, [Scan("mod-7", NO_README)], fs) == Reject(DIFFERS)
  {
    NotesQualifies(pl, name);
    SingleFileMismatch(pl, Scan("mod-7", NO_README), fs, name);
  }

  /** A directory holding one qualifying file whose content differs from
      the recorded readme is reported as a mismatch. */
  lemma SingleFileMismatch(pl: Platform, scan: Scan, fs: FileSystem, name: string)
    requires scan.dir in fs.listings && fs.listings[scan.dir] == [name]
    requires Qualifies(pl, name)
    requires (scan.dir, name) in fs.contents && fs.contents[(scan.dir, name)] != scan.recorded
    ensures CompareAll(pl, [scan], fs) == Reject(DIFFERS)
  {
    var p := (n: string) => Qualifies(pl, n);
    assert p(name);
    assert FirstIndex([name], p) == 0;
    assert FirstQualifying(pl, [name]) == Some(name);
    assert !DirectoryAgrees(pl, scan, fs);
    var q := (sc: Scan) => !DirectoryAgrees(pl, sc, fs);
    assert q(scan);
    assert FirstIndex([scan], q) == 0;
    assert CheckDirectory(pl, scan, fs) == Reject(DIFFERS);
  }

  lemma NewTextFileAsWritten(fs: FileSystem, name: string)
    requires name == "notes.txt"
    requires fs == FileSystem(map["mod-7" := [name]], map[("mod-7", name) := "X"])
    ensures Unhandled([Scan("mod-7", NO_README)], fs) == [Rejected(DIFFERS)]
  {
    var scan := Scan("mod-7", NO_README);
    assert name[5..9] == [name[5], name[6], name[7], name[8]];
    TxtAtContains(name, 5);
    assert FilterFiles([name]) == [name];
    assert fs.listings[scan.dir] == [name];
    assert fs.contents[(scan.dir, name)] == "X" != NO_README;
    assert OnReadme(scan, Some(name), fs) == [Rejected(DIFFERS)];
    assert [name][1..] == [];
    assert CallbackRejections(scan, [name], fs) == [Rejected(DIFFERS)];
    assert ScanRejections(scan, fs) == [Rejected(DIFFERS)];
  }

  lemma NotesQualifies(pl: Platform, name: string)
    requires name == "notes.txt"
    ensures Qualifies(pl, name)
  {
    NotesIsPlain(name);
    LowerTxtEndingQualifies(pl, name);
  }

  lemma NotesIsPlain(name: string)
    requires name == "notes.txt"
    ensures IsPlainName(name)
    ensures |name| >= 5 && name[|name| - 4..] == TXT
  {
    assert name[5..] == [name[5], name[6], name[7], name[8]];
  }

  /** A bare name ending in a lower-case `.txt` after at least one other
      character qualifies. */
  lemma LowerTxtEndingQualifies(pl: Platform, name: string)
    requires IsPlainName(name)
    requires |name| >= 5 && name[|name| - 4..] == TXT
    ensures Qualifies(pl, name)
  {
    WatcherExamples.PlainNameQualifiesIff(pl, name);
    LowerTxtTail(name);
  }

  lemma LowerTxtTail(name: string)
    requires |name| >= 4 && name[|name| - 4..] == TXT
    ensures ToLower(name[|name| - 4..]) == TXT
  {
    var low := ToLower(name[|name| - 4..]);
    assert low == [low[0], low[1], low[2], low[3]];
  }

  /** An empty directory and a real readme recorded: the corrected
      validation rejects, while the original raises nothing at all, since
      its sentinel comparison is never reached. */
  lemma EmptyDirectoryWithText(pl: Platform, st: State, m: Mod, fs: FileSystem)
    requires OneModState(st, m, "Hello")
    requires fs == FileSystem(map["mod-7" := []], map[])
    ensures Validate(pl, st, fs) == Reject(DIFFERS)
    ensures Observe(st, fs) == Observation(NoValue, [])
  {
    OneModRun(st, m, "Hello");
    var scan := Scan("mod-7", "Hello");
    assert FirstQualifying(pl, []) == None;
    assert CheckDirectory(pl, scan, fs) == Reject(DIFFERS);
    assert CompareAll(pl, [scan], fs) == Reject(DIFFERS);
    assert ScanRejections(scan, fs) == [];
    assert Unhandled([scan], fs) == [];
  }
}

=== FILE: sequences.dfy ===
/** Searching a sequence for the first element with a property. */
module Sequences {

  /** The position of the first element of `s` satisfying `p`, or `|s|`
      when there is none. */
  function FirstIndex<T>(s: seq<T>, p: T -> bool): (k: nat)
    ensures k <= |s|
    ensures k < |s| ==> p(s[k])
    ensures forall j :: 0 <= j < k ==> !p(s[j])
  {
    if |s| == 0 then 0
    else if p(s[0]) then 0
    else
      var k := FirstIndex(s[1..], p);
      assert forall j :: 1 <= j < k + 1 ==> s[j] == s[1..][j - 1];
      k + 1
  }
}

=== FILE: validation.dfy ===
/** `validateReadmeValues(state)` as written.

    The synchronous part decides what the call returns: a rejection when
    no game is active, a rejection at the first enabled or installed mod
    that has no `readme` attribute, and otherwise `undefined`, because
    the final `Promise.resolve()` is not returned. For every mod the loop
    passes before that point it starts an asynchronous directory scan;
    the rejections those scans raise are never returned or awaited, so
    they surface only as unhandled rejections and never reach the
    caller. */
module Validation {
  import opened Wrappers
  import opened Mods
  import opened ReadmeFiles

  const NO_GAME := "A game must me selected in order to access mod data!"
  const NO_ATTRIBUTE := "Cannot find the readme attribute!"
  const DIFFERS := "Readme file differs from stored attribute!"

  /** What a call hands back to its caller. */
  datatype Outcome =
    | Reject(reason: string)  // a promise rejected with this reason
    | NoValue                 // `undefined`: no promise at all
    | Resolved                // a promise that resolves

  /** A directory scan started by the loop: the mod's directory and the
      recorded readme it will be compared with. */
  datatype Scan = Scan(dir: string, recorded: string)

  /** The synchronous effect of a call: its return value and the scans it
      started, in start order. */
  datatype Run = Run(result: Outcome, scans: seq<Scan>)

  /** The loop over the selected mods. It stops at the first mod whose
      recorded readme is missing or `null`; every mod before that one has
      had its scan started. */
  function CheckSelected(mods: seq<Mod>): (run: Run)
    ensures run.result == NoValue || run.result == Reject(NO_ATTRIBUTE)
    ensures run.result == NoValue <==> forall i :: 0 <= i < |mods| ==> RecordedReadme(mods[i]).Str?
    ensures |run.scans| <= |mods|
    ensures forall i :: 0 <= i < |run.scans| ==>
              RecordedReadme(mods[i]).Str? &&
              run.scans[i] == Scan(mods[i].installationPath, RecordedReadme(mods[i]).text)
    ensures run.result == NoValue ==> |run.scans| == |mods|
    ensures run.result == Reject(NO_ATTRIBUTE) ==>
              |run.scans| < |mods| && RecordedReadme(mods[|run.scans|]) == Null
  {
    if |mods| == 0 then Run(NoValue, [])
    else
      match RecordedReadme(mods[0])
      case Null => Run(Reject(NO_ATTRIBUTE), [])
      case Str(recorded) =>
        var rest := CheckSelected(mods[1..]);
        Run(rest.result, [Scan(mods[0].installationPath, recorded)] + rest.scans)
  }

  /** Mods after the first one without a readme are never examined: what
      follows it changes neither the result nor the scans. */
  lemma {:induction false} LaterModsNotExamined(a: seq<Mod>, m: Mod, b: seq<Mod>)
    requires RecordedReadme(m) == Null
    ensures CheckSelected(a + [m] + b) == CheckSelected(a + [m])
  {
    if |a| == 0 {
      assert (a + [m] + b)[0] == m && (a + [m])[0] == m;
    } else {
      assert (a + [m] + b)[1..] == a[1..] + [m] + b;
      assert (a + [m])[1..] == a[1..] + [m];
      LaterModsNotExamined(a[1..], m, b);
    }
  }

  /** `validateReadmeValues(state)`, synchronous part. */
  function ValidateReadmeValues(st: State): (run: Run)
    ensures !run.result.Resolved?
    ensures st.activeGameId == None ==> run == Run(Reject(NO_GAME), [])
    ensures run.result == Reject(NO_GAME) <==> st.activeGameId == None
  {
    match st.activeGameId
    case None => Run(Reject(NO_GAME), [])
    case Some(gameId) => CheckSelected(SelectMods(ModsOf(st, gameId)))
  }

  /** With a game active, the call rejects for a missing readme exactly
      when some enabled or installed mod of that game lacks one; a mod in
      any other state never causes it. Otherwise it returns
      `undefined`. */
  lemma MissingAttributeIff(st: State)
    ensures ValidateReadmeValues(st).result == Reject(NO_ATTRIBUTE) <==>
            st.activeGameId.Some? &&
            exists m :: m in ModsOf(st, st.activeGameId.value) && IsActive(m) && RecordedReadme(m) == Null
    ensures ValidateReadmeValues(st).result == NoValue <==>
            st.activeGameId.Some? &&
            forall m :: m in ModsOf(st, st.activeGameId.value) && IsActive(m) ==> RecordedReadme(m).Str?
  {
    if st.activeGameId.Some? {
      var table := ModsOf(st, st.activeGameId.value);
      var selected := SelectMods(table);
      forall m | m in table && IsActive(m)
        ensures m in selected
      {
        SelectModsMembership(table, m);
      }
    }
  }

  /** The file system the asynchronous part reads, addressed by a mod's
      directory and a file name in it. A directory or file that is not in
      the maps cannot be read. */
  datatype FileSystem = FileSystem(listings: map<string, seq<string>>, contents: map<(string, string), string>)

  /** Why a promise started by a scan rejects. No such rejection is
      returned to the caller. */
  datatype Rejection =
    | Rejected(reason: string)
    | DirectoryUnreadable(dir: string)
    | FileUnreadable(dir: string, name: string)

  /** The callback handed to `filterFiles`. Its branch for a `null` name
      compares the recorded readme with the sentinel text; `filterFiles`
      only ever passes names, so that branch never runs. */
  function OnReadme(scan: Scan, readMe: Option<string>, fs: FileSystem): (rs: seq<Rejection>)
    ensures |rs| <= 1
    ensures rs == [Rejected(DIFFERS)] <==>
              match readMe
              case None => scan.recorded != NO_README
              case Some(name) =>
                (scan.dir, name) in fs.contents && fs.contents[(scan.dir, name)] != scan.recorded
    ensures rs == [] <==>
              match readMe
              case None => scan.recorded == NO_README
              case Some(name) =>
                (scan.dir, name) in fs.contents && fs.contents[(scan.dir, name)] == scan.recorded
    ensures readMe.Some? && (scan.dir, readMe.value) !in fs.contents ==>
              rs == [FileUnreadable(scan.dir, readMe.value)]
  {
    match readMe
    case None =>
      if NO_README != scan.recorded then [Rejected(DIFFERS)] else []
    case Some(name) =>
      if (scan.dir, name) !in fs.contents then [FileUnreadable(scan.dir, name)]
      else if fs.contents[(scan.dir, name)] != scan.recorded then [Rejected(DIFFERS)]
      else []
  }

  /** The rejections raised by the callback calls for `names`, in call
      order. */
  function CallbackRejections(scan: Scan, names: seq<string>, fs: FileSystem): (rs: seq<Rejection>)
    ensures |rs| <= |names|
    ensures forall r :: r in rs ==> exists name :: name in names && r in OnReadme(scan, Some(name), fs)
  {
    if |names| == 0 then []
    else
      var rest := CallbackRejections(scan, names[1..], fs);
      assert forall name :: name in names[1..] ==> name in names;
      OnReadme(scan, Some(names[0]), fs) + rest
  }

  /** The rejections raised by one scan: the directory read itself, or the
      callbacks for the names `filterFiles` passes on. */
  function ScanRejections(scan: Scan, fs: FileSystem): (rs: seq<Rejection>)
    ensures scan.dir !in fs.listings ==> rs == [DirectoryUnreadable(scan.dir)]
    ensures scan.dir in fs.listings ==>
              forall r :: r in rs ==>
                exists name :: name in FilterFiles(fs.listings[scan.dir]) && r in OnReadme(scan, Some(name), fs)
  {
    if scan.dir !in fs.listings then [DirectoryUnreadable(scan.dir)]
    else CallbackRejections(scan, FilterFiles(fs.listings[scan.dir]), fs)
  }

  /** The rejections raised by all started scans. */
  function Unhandled(scans: seq<Scan>, fs: FileSystem): (rs: seq<Rejection>)
    ensures forall r :: r in rs ==> exists i :: 0 <= i < |scans| && r in ScanRejections(scans[i], fs)
  {
    if |scans| == 0 then []
    else
      var rest := Unhandled(scans[1..], fs);
      assert forall i :: 0 <= i < |scans| - 1 ==> scans[1..][i] == scans[i + 1];
      ScanRejections(scans[0], fs) + rest
  }

  /** Everything a call leads to: what it returns, and the rejections its
      scans raise later, which nobody handles. */
  datatype Observation = Observation(returned: Outcome, unhandled: seq<Rejection>)

  function Observe(st: State, fs: FileSystem): (obs: Observation)
    ensures !obs.returned.Resolved?
    ensures st.activeGameId == None ==> obs == Observation(Reject(NO_GAME), [])
  {
    var run := ValidateReadmeValues(st);
    Observation(run.result, Unhandled(run.scans, fs))
  }

  /** The return value does not depend on the disk: whatever the files
      hold, the caller sees the same outcome. */
  lemma ReturnIgnoresDisk(st: State, fs1: FileSystem, fs2: FileSystem)
    ensures Observe(st, fs1).returned == Observe(st, fs2).returned
  {
  }

  /** The callback calls for a split list of names raise the rejections
      for the first part, then those for the second. */
  lemma {:induction false} CallbackRejectionsAppend(scan: Scan, a: seq<string>, b: seq<string>, fs: FileSystem)
    ensures CallbackRejections(scan, a + b, fs) == CallbackRejections(scan, a, fs) + CallbackRejections(scan, b, fs)
  {
    if |a| == 0 {
      assert a + b == b;
    } else {
      assert (a + b)[1..] == a[1..] + b;
      CallbackRejectionsAppend(scan, a[1..], b, fs);
    }
  }

  /** One name raises exactly what the callback raises for it. */
  lemma CallbackRejectionsSingle(scan: Scan, n: string, fs: FileSystem)
    ensures CallbackRejections(scan, [n], fs) == OnReadme(scan, Some(n), fs)
  {
  }

  lemma {:induction false} CallbackRejectionsContain(scan: Scan, names: seq<string>, fs: FileSystem, name: string)
    requires name in names
    ensures forall r :: r in OnReadme(scan, Some(name), fs) ==> r in CallbackRejections(scan, names, fs)
  {
    if names[0] != name {
      CallbackRejectionsContain(scan, names[1..], fs, name);
    }
  }

  lemma {:induction false} UnhandledContain(scans: seq<Scan>, fs: FileSystem, i: nat)
    requires i < |scans|
    ensures forall r :: r in ScanRejections(scans[i], fs) ==> r in Unhandled(scans, fs)
  {
    if i > 0 {
      UnhandledContain(scans[1..], fs, i - 1);
    }
  }

  /** A content mismatch is only ever an unhandled rejection. When a game
      is active and every selected mod has a readme, a selected mod whose
      directory holds a `.txt` file with different content makes a scan
      reject with the mismatch message, yet the call still returns
      `undefined`. */
  lemma MismatchNeverReturned(st: State, fs: FileSystem, m: Mod, name: string)
    requires st.activeGameId.Some?
    requires var table := ModsOf(st, st.activeGameId.value);
             forall k :: k in table && IsActive(k) ==> RecordedReadme(k).Str?
    requires m in ModsOf(st, st.activeGameId.value) && IsActive(m)
    requires m.installationPath in fs.listings && name in fs.listings[m.installationPath]
    requires ContainsTxt(name)
    requires (m.installationPath, name) in fs.contents
    requires fs.contents[(m.installationPath, name)] != RecordedReadme(m).text
    ensures Observe(st, fs).returned == NoValue
    ensures Rejected(DIFFERS) in Observe(st, fs).unhandled
  {
    var table := ModsOf(st, st.activeGameId.value);
    var selected := SelectMods(table);
    SelectModsMembership(table, m);
    MissingAttributeIff(st);
    var run := CheckSelected(selected);
    var i :| 0 <= i < |selected| && selected[i] == m;
    var scan := run.scans[i];
    assert scan == Scan(m.installationPath, RecordedReadme(m).text);
    FilterFilesMembership(fs.listings[m.installationPath], name);
    CallbackRejectionsContain(scan, FilterFiles(fs.listings[m.installationPath]), fs, name);
    assert Rejected(DIFFERS) in ScanRejections(scan, fs);
    UnhandledContain(run.scans, fs, i);
  }

  lemma {:induction false} NoCallbacksNoRejections(scan: Scan, fs: FileSystem)
    requires scan.dir in fs.listings
    requires forall n :: n in fs.listings[scan.dir] ==> !ContainsTxt(n)
    ensures ScanRejections(scan, fs) == []
  {
    var calls := FilterFiles(fs.listings[scan.dir]);
    if |calls| > 0 {
      FilterFilesMembership(fs.listings[scan.dir], calls[0]);
    }
  }

  /** The sentinel comparison never happens: a readable directory without
      any `.txt` name raises nothing, even when the recorded readme is not
      the sentinel text. */
  lemma SentinelBranchUnreachable(st: State, fs: FileSystem, m: Mod)
    requires st.activeGameId.Some?
    requires var table := ModsOf(st, st.activeGameId.value);
             forall k :: k in table && IsActive(k) ==> RecordedReadme(k).Str?
    requires m in ModsOf(st, st.activeGameId.value) && IsActive(m)
    requires RecordedReadme(m).text != NO_README
    requires m.installationPath in fs.listings
    requires forall n :: n in fs.listings[m.installationPath] ==> !ContainsTxt(n)
    ensures Observe(st, fs).returned == NoValue
    ensures ScanRejections(Scan(m.installationPath, RecordedReadme(m).text), fs) == []
  {
    MissingAttributeIff(st);
    NoCallbacksNoRejections(Scan(m.installationPath, RecordedReadme(m).text), fs);
  }
}

=== FILE: watcherexamples.dfy ===
/** Concrete names run through the watcher's test. Each example is
    stated for an arbitrary name equal to the literal, and reduced to the
    general characterisation `ReadmeFiles.QualifiesIff`. */
module WatcherExamples {
  import opened Wrappers
  import opened JsString
  import opened NodePath
  import opened ReadmeFiles

  /** `README.TXT` qualifies, whatever the platform. */
  lemma UpperCaseReadmeQualifies(pl: Platform, name: string)
    requires name == "README.TXT"
    ensures OnFileChanged(pl, "rename", Some(name)) == Invoke(name)
  {
    PlainNameQualifiesIff(pl, name);
    ReadmeTailIsTxt(name);
  }

  lemma ReadmeTailIsTxt(name: string)
    requires name == "README.TXT"
    ensures ToLower(name[|name| - 4..]) == TXT
  {
    var low := ToLower(name[6..]);
    assert low == [low[0], low[1], low[2], low[3]];
  }

  /** `notes.txt.bak` does not qualify: its extension is `.bak`. */
  lemma BackupCopyDoesNotQualify(pl: Platform, name: string)
    requires name == "notes.txt.bak"
    ensures OnFileChanged(pl, "rename", Some(name)) == Ignore
  {
    PlainNameQualifiesIff(pl, name);
    BackupTailIsNotTxt(name);
  }

  lemma BackupTailIsNotTxt(name: string)
    requires name == "notes.txt.bak"
    ensures ToLower(name[|name| - 4..]) != TXT
  {
    assert ToLower(name[9..])[1] == 'b';
  }

  /** For a name without separators or drive designator, the test reads
      the last four characters. */
  lemma PlainNameQualifiesIff(pl: Platform, name: string)
    requires IsPlainName(name)
    ensures Qualifies(pl, name) <==> |name| >= 5 && ToLower(name[|name| - 4..]) == TXT
  {
    PlainSegment(pl, name);
    QualifiesIff(pl, name);
  }

  /** `.txt` does not qualify: a leading dot starts no extension. */
  lemma DotFileDoesNotQualify(pl: Platform, name: string)
    requires name == ".txt"
    ensures OnFileChanged(pl, "rename", Some(name)) == Ignore
  {
    PlainSegment(pl, name);
    DotFileHasNoExtension(name);
  }

  lemma DotFileHasNoExtension(name: string)
    requires name == ".txt"
    ensures SegmentExtension(name) == ""
  {
    assert name[0] == '.' && name[1] != '.' && name[2] != '.' && name[3] != '.';
    assert LastDot(name) == 0;
  }
}

=== FILE: wrappers.dfy ===
/** The optional value used throughout the model for JavaScript's
    `undefined`/`null` arguments and for "not found" search results. */
module Wrappers {

  datatype Option<+T> = None | Some(value: T)
}
